=== FILE: README.md ===
# User record store — a Dafny model

This project models the decision logic of a small user-record API: a single
`users` table of records with four text fields and a three-valued
identification-document kind; the validations a record must pass before it
is saved; and three request handlers: search (`index`), insert (`create`)
and criteria-based delete (`destroy`). The table is a `seq<User>` in insertion
order. Each handler is a pure function from the current store and the
request parameters to the next store and an outcome. An outcome is a
datatype that stands in for the HTTP response.

Modules, one per source concern:

- `Wrappers` (`wrappers.dfy`): `Option` (Ruby's `nil`) and `Result` (a raised exception).
- `Text` (`text.dfy`): blankness (`String#blank?`) and case folding (SQL `LOWER`).
- `Email` (`email.dfy`): the e-mail format, Ruby's `URI::MailTo::EMAIL_REGEXP`,
  stated as a predicate. The pattern comes from Ruby's standard library and is
  not part of the repository; its language is local part, `@`, and one or more
  dot-separated labels of 1–63 letters, digits and hyphens.
- `UserModel` (`user.dfy`): the `gov_id_type` enum with its codes and keys, the
  attribute hash, building a record (`User.new`) and the six validations.
- `Store` (`store.dfy`): the criteria filter (`User.where`), what `destroy_all`
  leaves behind, and the two uniqueness invariants.
- `Schema` (`schema.dfy`): rows as the database stores them, with NOT NULL
  columns, the integer kind code and the five-column unique index.
- `UsersController` (`users_controller.dfy`): strong parameters, the three
  handlers, HTTP statuses, and a run of any sequence of requests.

Behaviour worth knowing, as the code has it:

- `require(:user)` rejects an absent or empty `user` hash with 400 before any query.
  A non-empty hash holding only unknown keys passes `require`, and `permit` then empties it.
  `User.where(**user_params)` then splats an empty hash, which passes no
  argument. `where` with no argument returns a where-chain, not a relation.
  Search and delete both end in an unrescued `NoMethodError`. The model's
  outcome for this is `Raised(NoMethodError)`, status 500, and the store is
  unchanged (`UnknownKeysRaise`). A create with such a hash is a 422
  (`UnknownKeysCreateNothing`). Both hold for any such hash and any `unique` value.
- Any present `unique` value, including `"false"` or `""`, sets the flag.
- Only `gov_id_number` is compared case-insensitively by the uniqueness
  validation. The other four scope fields are compared exactly
  (app/models/user.rb:9-12).
- Assigning a `gov_id_type` that is not an enum key raises `ArgumentError` when
  the record is built. The controller does not rescue it, so the model gives it
  its own outcome (`Raised(ArgumentError(value))`, status 500). A blank kind is cast to nil and fails
  the inclusion validation.
- The delete error is the same 422 whether zero or several records match.
  Its message says "more than one" in both cases; messages are not modelled.

## Model

| member | source | states |
|---|---|---|
| UserModel.Code | app/models/user.rb:4 | every kind has an integer code below 3 |
| UserModel.FromCode | db/schema.rb:19 | a stored integer names a kind exactly when it is 0, 1 or 2, and then it is that kind's code |
| UserModel.CodeRoundTrip | app/models/user.rb:4 | decoding a kind's code gives the kind back, so the three codes are distinct |
| UserModel.FromName | app/models/user.rb:4 | a string names a kind only if it is that kind's enum key; no kind has any other key |
| UserModel.Name | app/models/user.rb:4 | every enum key is a non-blank string starting with a lower-case letter, so casting a key never yields nil |
| UserModel.NameRoundTrip | app/models/user.rb:4 | every kind's key is read back as that kind |
| UserModel.CastGovIdType | app/models/user.rb:4 | assigning the kind: blank gives nil, an enum key gives its kind, anything else raises ArgumentError carrying the value |
| UserModel.Build | app/controllers/users_controller.rb:18 | building a record copies the four text attributes unchanged and fails only when the kind cast raises |
| UserModel.BuildAsAttributes | app/controllers/users_controller.rb:18 | building from a stored record's full attributes gives that record back as a candidate |
| UserModel.Collides | app/models/user.rb:9-12 | a stored record collides with its own candidate; a colliding candidate has all five fields present (nil never collides) |
| UserModel.IsTaken | app/models/user.rb:9-12 | a candidate identical to a stored record is taken; only a non-empty store can hold a duplicate, and a taken candidate has all five fields present: the number and its four scope columns |
| UserModel.IsValid | app/models/user.rb:6-13 | a valid candidate has all five fields present and is not a copy of any stored record |
| UserModel.IsBlank | app/models/user.rb:6-9 | the `blank?` test behind the presence validators and the enum cast: nil, or a string of white space only (the empty string included) |
| UserModel.Validate | app/models/user.rb:6-13 | no errors exactly when every rule holds; each rule's error is present iff that rule fails (all failures reported, none short-circuited) |
| UserModel.ToUser | app/controllers/users_controller.rb:20 | a valid candidate is saved as a record with the same five field values |
| UserModel.ValidIsComplete | app/models/user.rb:6-13 | a valid candidate has all five fields present and a non-blank e-mail |
| UserModel.BlankSamplesAreBlank | spec/models/user_spec.rb:12-30 | nil, '' and ' ' are blank |
| UserModel.BlankSamplesAreReported | spec/models/user_spec.rb:12-50 | a nil, '' or ' ' first name, last name or document number is reported as blank and makes the record invalid |
| UserModel.UnknownKindRaisesBlankKindFails | spec/models/user_spec.rb:52-66 | an unknown kind raises before validation; a nil, '' or ' ' kind builds and fails inclusion |
| UserModel.CaseVariantIsTaken | app/models/user.rb:9-12 | a candidate equal to a stored record on four fields, with a document number equal up to case, is reported as taken |
| UserModel.DifferentEmailIsNotTaken | app/models/user.rb:9-12 | e-mail is compared exactly: a candidate whose e-mail no stored record has is never taken |
| Text.Fold | app/models/user.rb:11 | folding keeps the length, leaves no upper-case letter and changes no other character |
| Text.FoldIdempotent | app/models/user.rb:11 | folding twice equals folding once |
| Text.FoldIgnoresCase | app/models/user.rb:11 | strings that differ only in letter case fold to the same string |
| Text.FoldEqualMeansCaseVariants | app/models/user.rb:11 | the converse: strings that fold alike have equal length and agree letter by letter up to case |
| Email.EmailOk | app/models/user.rb:8 | an accepted address has at least three characters and starts with a local-part character, never with '@' |
| Email.EmailShape | app/models/user.rb:8 | an accepted address has exactly one '@', splits uniquely into local part and domain, has at least 3 characters and is not blank |
| Email.MalformedEmailsRejected | spec/models/user_spec.rb:32-40 | '', ' ' and 'invalid_email' are rejected (nil is checked as '') |
| Email.PlainEmailAccepted | app/models/user.rb:8 | 'a@b.com' is accepted |
| Store.Matches | app/controllers/users_controller.rb:49 | the hash filter of `where`: an attribute the criteria leave out constrains nothing, so only the supplied attributes decide a match (with no attribute at all line 49 never filters; `Index` and `Destroy` raise there) |
| UsersController.MatchesPerField | app/controllers/users_controller.rb:38-49 | a record matches the criteria exactly when, for every permitted key the criteria supply, the supplied value equals the record's own value for that key |
| Store.MatchesByKey | app/controllers/users_controller.rb:48-50 | a record matches its own full attributes, and a kind criterion matches only the enum key of the record's kind |
| Store.Filter | app/controllers/users_controller.rb:48-50 | the search result holds exactly the stored records equal to every supplied criterion, and no more records than the store |
| Store.Reject | app/controllers/users_controller.rb:28 | what a delete of the matches leaves holds exactly the records that do not match |
| Store.Partition | app/controllers/users_controller.rb:28 | matches and non-matches together are the store, as a multiset |
| Store.SingleMatch | app/controllers/users_controller.rb:28 | with exactly one match at position k, deleting the matches gives the store with position k cut out |
| Store.ValidationImpliesIndex | db/schema.rb:22 | a store with no two records equal up to case on the scoped fields has no two identical records |
| Store.AppendUnique | app/models/user.rb:9-12 | appending a record that passed the duplicate check keeps both uniqueness invariants |
| Store.RejectKeepsUnique | app/controllers/users_controller.rb:28 | deleting matches keeps both uniqueness invariants |
| Store.FullAttributesMatchOnlySelf | app/controllers/users_controller.rb:49 | a record's full attribute set is matched by that record and no other |
| Store.FullAttributesIdentify | app/controllers/users_controller.rb:49 | in a store meeting the index, searching by a stored record's full attributes finds exactly that record |
| Schema.NotNull | db/schema.rb:15-19 | the `null: false` columns: a row is acceptable only when all five columns hold a value |
| Schema.InsertRow | db/schema.rb:15-19 | the inserted row meets NOT NULL iff the candidate has all five fields, and its kind code decodes to the candidate's kind |
| Schema.Load | db/schema.rb:15-19 | a row reads back as a record iff it has no NULL and a code in 0..2, and that record stores as the same row |
| Schema.LoadStoredRow | db/schema.rb:15-19 | storing then loading a record is the identity |
| Schema.ValidCandidateFitsTable | db/schema.rb:15-19 | a valid candidate's row has no NULL and a kind code in 0..2, and loads back as the saved record |
| Schema.RowsNotNull | db/schema.rb:15-19 | every row of a stored sequence has no NULL and loads back as its record |
| Schema.UniqueIndex | db/schema.rb:22 | the unique index: no two rows without NULL are equal on all five columns (NULLs never conflict) |
| Schema.ValidationMeetsIndex | db/schema.rb:22 | if every save passed the case-insensitive check, the exact five-column unique index holds over the rows |
| Schema.IndexMissesCaseVariants | db/schema.rb:22 | the exact unique index accepts two records that differ only in the case of the document number, although the validation treats them as one person |
| UsersController.Permit | app/controllers/users_controller.rb:38-42 | each permitted attribute is the request's value for that key, or nil when the key is absent |
| UsersController.PermitParamsOf | app/controllers/users_controller.rb:39-41 | a hash carrying given attributes permits back to exactly those attributes |
| UsersController.PermitIgnoresOtherKeys | app/controllers/users_controller.rb:39-41 | keys other than the five have no effect |
| UsersController.MissingUser | app/controllers/users_controller.rb:39 | `require(:user)` fails when the `user` parameter is absent or an empty hash |
| UsersController.UserParams | app/controllers/users_controller.rb:38-42 | fails with the missing key "user" exactly when the hash is absent or empty, else yields the permitted attributes |
| UsersController.Status | app/controllers/users_controller.rb:4-34 | 200 exactly for search results and the not-unique answer, 201 for a save, 204 for a delete, 400 for a missing parameter, 422 for validation or delete failure, 500 for an unrescued exception |
| UsersController.NoCriteria | app/controllers/users_controller.rb:49 | no permitted attribute remains, so `where(**{})` passes no argument and yields a where-chain |
| UsersController.Index | app/controllers/users_controller.rb:8-15 | 400 iff criteria missing; raises iff no permitted attribute remains; otherwise "not unique" iff the flag is present and more than one record matches, else exactly the matching records (the same multiset as the filter), at most one when the flag is present |
| UsersController.Create | app/controllers/users_controller.rb:17-25 | 400 iff the hash is missing; raises ArgumentError carrying the raw kind iff the kind cast fails; saved iff the record builds and validates; a save appends exactly the new record, which matches the request; a 422 carries exactly the list `Validate` gives for the built record, so every failing rule is reported; store unchanged otherwise; both uniqueness invariants kept |
| UsersController.Destroy | app/controllers/users_controller.rb:27-34 | 400 iff criteria missing; raises and deletes nothing iff no permitted attribute remains; otherwise deletes iff exactly one record matches, and the store then loses exactly that record; unchanged in every other case; both invariants kept |
| UsersController.DestroyRemovesOnlyTheMatch | app/controllers/users_controller.rb:28-29 | a successful delete cuts one matching record out at its position and keeps all others in order |
| UsersController.UnknownKeysRaise | app/controllers/users_controller.rb:48-50 | a search or delete whose non-empty hash has only unknown keys, any number of them, raises NoMethodError (`where` with no argument gives a where-chain), and the delete changes nothing, with or without the flag |
| UsersController.UnknownKeysCreateNothing | spec/requests/users_spec.rb:349-357 | a create whose non-empty hash has only unknown keys, any number of them, is rejected and writes nothing, whatever the `unique` parameter holds |
| UsersController.AnyUniqueValueSetsFlag | app/controllers/users_controller.rb:44-46 | the search outcome does not depend on which value the `unique` parameter holds |
| UsersController.MissingCriteriaIsBadRequest | spec/requests/users_spec.rb:367-374 | without criteria, search and delete answer 400 and delete changes nothing, with or without the flag |
| UsersController.IndexStatus | app/controllers/users_controller.rb:4-15 | a search answers 400 when criteria are missing, 500 when no permitted attribute remains, and 200 otherwise |
| UsersController.DestroyStatus | app/controllers/users_controller.rb:27-34 | delete answers 204 iff exactly one record matches, 422 iff zero or several match, 400 iff criteria missing, 500 iff no permitted attribute remains |
| UsersController.CreateStatus | spec/requests/users_spec.rb:341-357 | create answers 201 iff the store grows by one; any other status leaves it unchanged; a 422 carries errors |
| UsersController.CreatedIsRetrievable | app/controllers/users_controller.rb:17-25 | a saved record is found again, alone, by its full attribute set |
| UsersController.FirstInsertSaved | spec/requests/users_spec.rb:341-347 | a complete, well-formed record posted to an empty store is saved and becomes the only record |
| UsersController.DoubleInsertRejected | spec/models/user_spec.rb:69-85 | inserting the same person twice: the first is saved, the second is rejected with exactly the "taken" error and writes nothing |
| UsersController.Handle | app/controllers/users_controller.rb:8-34 | a search never changes the store, no request adds more than one record, and every request keeps both uniqueness invariants |
| UsersController.Run | app/controllers/users_controller.rb:8-34 | a run of searches leaves the store as it was, the store grows by at most one record per request, and the validation's uniqueness invariant survives every run |
| UsersController.RunKeepsTableConstraints | db/schema.rb:15-22 | after any sequence of requests, the store keeps the validation invariant and its rows meet NOT NULL and the unique index |

## Left out

- HTTP routing, the `/health` route and JSON rendering: outcomes are a datatype and error messages are not modelled.
- Record ids and the `created_at`/`updated_at` timestamps: the store keeps no ids and no clock.
- SQL execution and result order: a search returns records in store (insertion) order.
- Concurrency: the model has no races between the duplicate check and the insert. The database's unique index compares the document number exactly, so it would catch only a race between exact duplicates. Two concurrent inserts that differ only in the case of the number would both be stored and break the validation invariant (`IndexMissesCaseVariants`). `ValidationMeetsIndex` shows the index never fires for sequential requests.
- Text.IsSpace: blankness covers the ASCII white-space characters only, not the other Unicode spaces that `String#blank?` also accepts.
- Text.Fold: folds ASCII letters only, not the locale-dependent case mapping of SQL `LOWER` on non-ASCII text.
- Store.Matches: a `gov_id_type` criterion matches by enum key only. The framework's cast would also accept a numeric code string such as "1"; that is not modelled.
- UsersController.Params: request values are strings. Nested values, arrays and JSON `null` values are not modelled, and neither is a `user` parameter that is a plain string.
- The status of an unrescued `ArgumentError` or `NoMethodError` (500) is the framework's default; no code in the repository renders it. Without the `unique` flag, a search on a where-chain fails when the index view renders it. That view is not part of this model, and the model gives this case the same `NoMethodError` outcome.
- db/migrate/20220905065205_create_users.rb repeats db/schema.rb and is not modelled separately. spec/factories/users.rb generates random test data and is not modelled.

=== FILE: email.dfy ===
/**
 The e-mail format check. The model validates `email` against Ruby's
 `URI::MailTo::EMAIL_REGEXP`, whose shape is
   local-part "@" label ("." label)*
 where the local part is one or more characters of an allowed set and a
 label is 1 to 63 letters, digits and hyphens that starts and ends with a
 letter or digit. The predicates below state that language directly.
 */
module Email {
  import opened Text

  predicate IsAlnum(c: char) {
    'a' <= c <= 'z' || 'A' <= c <= 'Z' || '0' <= c <= '9'
  }

  /** The character class of the local part (it has no '@'). */
  predicate IsLocalChar(c: char) {
    IsAlnum(c) || c in ".!#$%&'*+/=?^_`{|}~-"
  }

  predicate IsLocalPart(s: string) {
    |s| > 0 && forall i :: 0 <= i < |s| ==> IsLocalChar(s[i])
  }

  predicate IsLabel(s: string) {
    && 1 <= |s| <= 63
    && IsAlnum(s[0])
    && IsAlnum(s[|s| - 1])
    && forall i :: 0 <= i < |s| ==> IsAlnum(s[i]) || s[i] == '-'
  }

  /** One or more labels separated by single dots. */
  predicate IsDomain(s: string)
    decreases |s|
  {
    || IsLabel(s)
    || exists k :: 0 < k < |s| && s[k] == '.' && IsLabel(s[..k]) && IsDomain(s[k + 1..])
  }

  /** The whole string matches the e-mail pattern (it is anchored at both ends). */
  predicate EmailOk(s: string)
    ensures EmailOk(s) ==> |s| >= 3 && IsLocalChar(s[0]) && s[0] != '@'
  {
    exists k :: 0 <= k < |s| && s[k] == '@' && IsLocalPart(s[..k]) && IsDomain(s[k + 1..])
  }

  lemma {:induction false} DomainHasNoAt(s: string)
    requires IsDomain(s)
    ensures |s| > 0
    ensures forall i :: 0 <= i < |s| ==> s[i] != '@'
    decreases |s|
  {
    if !IsLabel(s) {
      var k :| 0 < k < |s| && s[k] == '.' && IsLabel(s[..k]) && IsDomain(s[k + 1..]);
      DomainHasNoAt(s[k + 1..]);
      forall i | 0 <= i < |s|
        ensures s[i] != '@'
      {
        if i < k {
          assert s[i] == s[..k][i];
        } else if i > k {
          assert s[i] == s[k + 1..][i - k - 1];
        }
      }
    }
  }

  /** The local part and the domain have no '@', so the '@' that splits an
      address is its only one. */
  lemma {:induction false} OnlyAt(s: string, m: int)
    requires 0 <= m < |s| && s[m] == '@'
    requires IsLocalPart(s[..m]) && IsDomain(s[m + 1..])
    ensures forall j :: 0 <= j < |s| && j != m ==> s[j] != '@'
  {
    DomainHasNoAt(s[m + 1..]);
    forall j | 0 <= j < |s| && j != m
      ensures s[j] != '@'
    {
      if j < m {
        assert s[j] == s[..m][j];
        assert IsLocalChar(s[..m][j]);
      } else {
        assert s[j] == s[m + 1..][j - m - 1];
      }
    }
  }

  /** An accepted address has exactly one '@', so the split into local part
      and domain is unique, and it is never blank. */
  lemma EmailShape(s: string, k: int)
    requires EmailOk(s)
    requires 0 <= k < |s| && s[k] == '@'
    ensures IsLocalPart(s[..k]) && IsDomain(s[k + 1..])
    ensures forall j :: 0 <= j < |s| && j != k ==> s[j] != '@'
    ensures |s| >= 3
    ensures !AllSpace(s)
  {
    var m :| 0 <= m < |s| && s[m] == '@' && IsLocalPart(s[..m]) && IsDomain(s[m + 1..]);
    OnlyAt(s, m);
    assert k == m;
    DomainHasNoAt(s[m + 1..]);
    assert !IsSpace(s[k]);
  }

  /** A string without '@' is never an address. */
  lemma NoAtNoEmail(s: string)
    requires forall i :: 0 <= i < |s| ==> s[i] != '@'
    ensures !EmailOk(s)
  {
  }

  /** The malformed values of spec/models/user_spec.rb are all rejected;
      `nil` is checked as its string form "", so it is covered too. */
  lemma MalformedEmailsRejected()
    ensures !EmailOk("")
    ensures !EmailOk(" ")
    ensures !EmailOk("invalid_email")
  {
    var s := "invalid_email";
    forall i | 0 <= i < |s|
      ensures s[i] != '@'
    {
    }
    NoAtNoEmail(s);
    NoAtNoEmail(" ");
  }

  /** A plain address is accepted. */
  lemma PlainEmailAccepted()
    ensures EmailOk("a@b.com")
  {
    var s := "a@b.com";
    assert IsLabel("com");
    assert IsDomain("com");
    assert s[4..] == "com";
    assert s[2..][..1] == "b" && s[2..][2..] == "com";
    assert IsLabel("b");
    assert IsDomain(s[2..]);
    assert s[..1] == "a";
    assert IsLocalPart(s[..1]);
  }
}

=== FILE: schema.dfy ===
/**
 The `users` table as the database sees it: five nullable-in-principle
 columns with NOT NULL constraints, the kind stored as an integer, and a
 unique index over all five columns. The model shows that rows written by
 validated saves always meet these constraints.
 */
module Schema {
  import opened Wrappers
  import opened Text
  import opened UserModel
  import opened Store

  /** One row of the table as written by an INSERT; nil becomes NULL. */
  datatype Row = Row(
    firstName: Option<string>,
    lastName: Option<string>,
    email: Option<string>,
    govIdNumber: Option<string>,
    govIdType: Option<int>)

  /** The NOT NULL constraints on the five identifying columns. */
  predicate NotNull(r: Row) {
    r.firstName.Some? && r.lastName.Some? && r.email.Some? && r.govIdNumber.Some? && r.govIdType.Some?
  }

  /** The row an INSERT of a candidate writes: the kind as its enum code. */
  function InsertRow(c: Candidate): (r: Row)
    ensures NotNull(r) <==> c.firstName.Some? && c.lastName.Some? && c.email.Some?
                            && c.govIdNumber.Some? && c.govIdType.Some?
    ensures r.govIdType.Some? ==> FromCode(r.govIdType.value) == c.govIdType
  {
    Row(c.firstName, c.lastName, c.email, c.govIdNumber,
        match c.govIdType case None => None case Some(t) => Some(Code(t)))
  }

  function StoredRow(u: User): Row {
    InsertRow(AsCandidate(u))
  }

  /** Reads a row back as a record; a NULL column or a code outside the
      enum gives no record. */
  function Load(r: Row): (u: Option<User>)
    ensures u.Some? <==> NotNull(r) && 0 <= r.govIdType.value < 3
    ensures u.Some? ==> StoredRow(u.value) == r
  {
    if NotNull(r) && 0 <= r.govIdType.value < 3 then
      Some(User(r.firstName.value, r.lastName.value, r.email.value, r.govIdNumber.value,
                FromCode(r.govIdType.value).value))
    else None
  }

  /** Storing and loading a record gives the record back. */
  lemma LoadStoredRow(u: User)
    ensures Load(StoredRow(u)) == Some(u)
  {
    CodeRoundTrip(u.govIdType);
  }

  /** A candidate that passes validation writes a row the NOT NULL
      constraints accept, with a kind code in 0..2, that loads back as the
      saved record. */
  lemma ValidCandidateFitsTable(store: seq<User>, c: Candidate)
    requires IsValid(store, c)
    ensures NotNull(InsertRow(c))
    ensures 0 <= InsertRow(c).govIdType.value < 3
    ensures Load(InsertRow(c)) == Some(ToUser(store, c))
  {
    LoadStoredRow(ToUser(store, c));
  }

  function Rows(s: seq<User>): (rows: seq<Row>)
    ensures |rows| == |s|
    ensures forall i :: 0 <= i < |s| ==> rows[i] == StoredRow(s[i])
  {
    if s == [] then [] else [StoredRow(s[0])] + Rows(s[1..])
  }

  /** The unique index over the five columns: two rows conflict when both
      are fully non-null and equal (NULLs never conflict). */
  predicate UniqueIndex(rows: seq<Row>) {
    forall i, j :: 0 <= i < j < |rows| ==> !(NotNull(rows[i]) && rows[i] == rows[j])
  }

  /** Every row of a stored sequence meets NOT NULL and holds a known code. */
  lemma RowsNotNull(s: seq<User>)
    ensures forall i :: 0 <= i < |s| ==> NotNull(Rows(s)[i]) && Load(Rows(s)[i]) == Some(s[i])
  {
    forall i | 0 <= i < |s|
      ensures NotNull(Rows(s)[i]) && Load(Rows(s)[i]) == Some(s[i])
    {
      LoadStoredRow(s[i]);
    }
  }

  /** If every save passed the case-insensitive duplicate check, the exact
      unique index can never reject a row. */
  lemma ValidationMeetsIndex(s: seq<User>)
    requires CaseInsensitivelyDistinct(s)
    ensures UniqueIndex(Rows(s))
  {
    ValidationImpliesIndex(s);
    forall i, j | 0 <= i < j < |s|
      ensures Rows(s)[i] != Rows(s)[j]
    {
      LoadStoredRow(s[i]);
      LoadStoredRow(s[j]);
    }
  }

  /** The exact index is weaker than the validation: two records that differ
      only in the case of the document number are different rows, yet the
      validation treats them as one person. Only the validation's check keeps
      such a pair out, so a race between two such inserts would leave both. */
  lemma IndexMissesCaseVariants(u: User, v: User)
    requires u.firstName == v.firstName && u.lastName == v.lastName && u.email == v.email
    requires u.govIdType == v.govIdType
    requires u.govIdNumber != v.govIdNumber && Fold(u.govIdNumber) == Fold(v.govIdNumber)
    ensures UniqueIndex(Rows([u, v]))
    ensures !CaseInsensitivelyDistinct([u, v])
  {
    assert SameIdentity(u, v);
    assert Rows([u, v])[0] != Rows([u, v])[1] by {
      LoadStoredRow(u);
      LoadStoredRow(v);
    }
  }
}

=== FILE: store.dfy ===
/**
 The `users` table as an ordered sequence of records: the criteria filter
 behind `User.where`, the complementary filter `destroy_all` leaves behind,
 and the two uniqueness invariants (the validation's case-insensitive one
 and the database index's exact one).
 */
module Store {
  import opened Wrappers
  import opened UserModel

  /** `User.where(attributes)`: a record matches when it equals every
      attribute the criteria supply; an absent attribute constrains nothing.
      The kind is compared by its enum key. */
  predicate Matches(u: User, a: Attributes)
    ensures a == Attributes(None, None, None, None, None) ==> Matches(u, a)
  {
    && (a.firstName.None? || a.firstName.value == u.firstName)
    && (a.lastName.None? || a.lastName.value == u.lastName)
    && (a.email.None? || a.email.value == u.email)
    && (a.govIdNumber.None? || a.govIdNumber.value == u.govIdNumber)
    && (a.govIdType.None? || a.govIdType.value == Name(u.govIdType))
  }

  /** A record matches its own full attributes, and a kind criterion matches
      only through the enum key of the record's kind. */
  lemma MatchesByKey(u: User, a: Attributes)
    ensures a == AsAttributes(u) ==> Matches(u, a)
    ensures Matches(u, a) && a.govIdType.Some? ==> FromName(a.govIdType.value) == Some(u.govIdType)
  {
    NameRoundTrip(u.govIdType);
  }

  /** The records that match, in store order. */
  function Filter(s: seq<User>, a: Attributes): (r: seq<User>)
    ensures |r| <= |s|
    ensures forall u :: u in r <==> u in s && Matches(u, a)
  {
    if s == [] then []
    else if Matches(s[0], a) then [s[0]] + Filter(s[1..], a)
    else Filter(s[1..], a)
  }

  /** The records that do not match, in store order. */
  function Reject(s: seq<User>, a: Attributes): (r: seq<User>)
    ensures |r| <= |s|
    ensures forall u :: u in r <==> u in s && !Matches(u, a)
  {
    if s == [] then []
    else if Matches(s[0], a) then Reject(s[1..], a)
    else [s[0]] + Reject(s[1..], a)
  }

  /** Every record lands on exactly one side. */
  lemma {:induction false} Partition(s: seq<User>, a: Attributes)
    ensures multiset(Filter(s, a)) + multiset(Reject(s, a)) == multiset(s)
    ensures |Filter(s, a)| + |Reject(s, a)| == |s|
  {
    if s != [] {
      Partition(s[1..], a);
      assert s == [s[0]] + s[1..];
    }
  }

  lemma {:induction false} FilterAppend(s: seq<User>, t: seq<User>, a: Attributes)
    ensures Filter(s + t, a) == Filter(s, a) + Filter(t, a)
    ensures Reject(s + t, a) == Reject(s, a) + Reject(t, a)
  {
    if s != [] {
      assert (s + t)[1..] == s[1..] + t;
      FilterAppend(s[1..], t, a);
    } else {
      assert s + t == t;
    }
  }

  /** When exactly one record matches, it is found at some position `k`,
      the filter is that record alone, and what remains is the store with
      position `k` cut out. */
  lemma SingleMatch(s: seq<User>, a: Attributes) returns (k: nat)
    requires |Filter(s, a)| == 1
    ensures k < |s|
    ensures Filter(s, a) == [s[k]]
    ensures Reject(s, a) == s[..k] + s[k + 1..]
  {
    var m := Filter(s, a)[0];
    assert m in Filter(s, a);
    k :| 0 <= k < |s| && s[k] == m;
    SplitAt(s, k, a);
    OneFilter(m, a);
    var pre, post := s[..k], s[k + 1..];
    assert |Filter(pre, a)| == 0 && |Filter(post, a)| == 0;
    NoMatchRejectsNothing(pre, a);
    NoMatchRejectsNothing(post, a);
  }

  /** Filtering around one position: the part before it, the record at it
      and the part after it are filtered separately. */
  lemma SplitAt(s: seq<User>, k: nat, a: Attributes)
    requires k < |s|
    ensures Filter(s, a) == Filter(s[..k], a) + Filter([s[k]], a) + Filter(s[k + 1..], a)
    ensures Reject(s, a) == Reject(s[..k], a) + Reject([s[k]], a) + Reject(s[k + 1..], a)
  {
    assert s == (s[..k] + [s[k]]) + s[k + 1..];
    FilterAppend(s[..k] + [s[k]], s[k + 1..], a);
    FilterAppend(s[..k], [s[k]], a);
  }

  lemma OneFilter(m: User, a: Attributes)
    requires Matches(m, a)
    ensures Filter([m], a) == [m]
    ensures Reject([m], a) == []
  {
    assert [m][1..] == [];
  }

  lemma NoMatchRejectsNothing(s: seq<User>, a: Attributes)
    requires Filter(s, a) == []
    ensures Reject(s, a) == s
  {
    Partition(s, a);
    RejectIsSubsequence(s, a);
  }

  /** `Reject` keeps records only by dropping some, so keeping all of them
      means it is the identity. */
  lemma {:induction false} RejectIsSubsequence(s: seq<User>, a: Attributes)
    ensures |Reject(s, a)| == |s| ==> Reject(s, a) == s
  {
    if s != [] {
      RejectIsSubsequence(s[1..], a);
    }
  }

  /** The database index: no two rows equal on all five columns. */
  predicate Distinct(s: seq<User>) {
    forall i, j :: 0 <= i < j < |s| ==> s[i] != s[j]
  }

  /** Two records the uniqueness validation treats as the same person. */
  predicate SameIdentity(u: User, v: User) {
    Collides(u, AsCandidate(v))
  }

  /** The validation's invariant: no two records are the same person. */
  predicate CaseInsensitivelyDistinct(s: seq<User>) {
    forall i, j :: 0 <= i < j < |s| ==> !SameIdentity(s[i], s[j])
  }

  /** The validation's condition is the stronger one: equal records are the
      same person, so a case-insensitively distinct store meets the index. */
  lemma ValidationImpliesIndex(s: seq<User>)
    requires CaseInsensitivelyDistinct(s)
    ensures Distinct(s)
  {
    forall i, j | 0 <= i < j < |s|
      ensures s[i] != s[j]
    {
      if s[i] == s[j] {
        assert SameIdentity(s[i], s[j]);
      }
    }
  }

  /** Saving a record that passed the duplicate check keeps both invariants. */
  lemma AppendUnique(s: seq<User>, u: User)
    requires !IsTaken(s, AsCandidate(u))
    ensures CaseInsensitivelyDistinct(s) ==> CaseInsensitivelyDistinct(s + [u])
    ensures Distinct(s) ==> Distinct(s + [u])
  {
    var t := s + [u];
    forall i | 0 <= i < |s|
      ensures !SameIdentity(t[i], u) && t[i] != u
    {
      assert t[i] == s[i];
      assert !Collides(s[i], AsCandidate(u));
    }
  }

  /** Removing the matching records keeps both invariants. */
  lemma RejectKeepsUnique(s: seq<User>, a: Attributes)
    ensures CaseInsensitivelyDistinct(s) ==> CaseInsensitivelyDistinct(Reject(s, a))
    ensures Distinct(s) ==> Distinct(Reject(s, a))
  {
    if CaseInsensitivelyDistinct(s) {
      RejectKeepsCaseInsensitive(s, a);
    }
    if Distinct(s) {
      RejectKeepsDistinct(s, a);
    }
  }

  /** A record kept by `Reject` of the tail sits at some later position. */
  lemma KeptFromTail(s: seq<User>, a: Attributes, v: User) returns (m: nat)
    requires s != [] && v in Reject(s[1..], a)
    ensures 0 < m < |s| && s[m] == v
  {
    var j :| 0 <= j < |s[1..]| && s[1..][j] == v;
    m := j + 1;
  }

  lemma {:induction false} RejectKeepsCaseInsensitive(s: seq<User>, a: Attributes)
    requires CaseInsensitivelyDistinct(s)
    ensures CaseInsensitivelyDistinct(Reject(s, a))
  {
    if s != [] {
      assert CaseInsensitivelyDistinct(s[1..]) by {
        forall i, j | 0 <= i < j < |s[1..]|
          ensures !SameIdentity(s[1..][i], s[1..][j])
        {
          assert s[1..][i] == s[i + 1] && s[1..][j] == s[j + 1];
        }
      }
      RejectKeepsCaseInsensitive(s[1..], a);
      var r := Reject(s[1..], a);
      if !Matches(s[0], a) {
        var t := [s[0]] + r;
        forall i, j | 0 <= i < j < |t|
          ensures !SameIdentity(t[i], t[j])
        {
          if i == 0 {
            var m := KeptFromTail(s, a, t[j]);
            assert !SameIdentity(s[0], s[m]);
          } else {
            assert t[i] == r[i - 1] && t[j] == r[j - 1];
          }
        }
      }
    }
  }

  lemma {:induction false} RejectKeepsDistinct(s: seq<User>, a: Attributes)
    requires Distinct(s)
    ensures Distinct(Reject(s, a))
  {
    if s != [] {
      assert Distinct(s[1..]) by {
        forall i, j | 0 <= i < j < |s[1..]|
          ensures s[1..][i] != s[1..][j]
        {
          assert s[1..][i] == s[i + 1] && s[1..][j] == s[j + 1];
        }
      }
      RejectKeepsDistinct(s[1..], a);
      var r := Reject(s[1..], a);
      if !Matches(s[0], a) {
        var t := [s[0]] + r;
        forall i, j | 0 <= i < j < |t|
          ensures t[i] != t[j]
        {
          if i == 0 {
            var m := KeptFromTail(s, a, t[j]);
            assert s[0] != s[m];
          } else {
            assert t[i] == r[i - 1] && t[j] == r[j - 1];
          }
        }
      }
    }
  }

  lemma NothingMatches(s: seq<User>, a: Attributes)
    requires forall i :: 0 <= i < |s| ==> !Matches(s[i], a)
    ensures Filter(s, a) == []
  {
    if Filter(s, a) != [] {
      assert Filter(s, a)[0] in Filter(s, a);
    }
  }

  /** The full attribute set of a record is matched by that record alone. */
  lemma FullAttributesMatchOnlySelf(u: User, v: User)
    ensures Matches(v, AsAttributes(u)) <==> v == u
  {
    NameRoundTrip(u.govIdType);
    NameRoundTrip(v.govIdType);
  }

  /** In a store that meets the index, the full attribute set of a stored
      record finds that record and nothing else. */
  lemma FullAttributesIdentify(s: seq<User>, u: User)
    requires Distinct(s)
    requires u in s
    ensures Filter(s, AsAttributes(u)) == [u]
  {
    var a := AsAttributes(u);
    var k :| 0 <= k < |s| && s[k] == u;
    var pre, post := s[..k], s[k + 1..];
    assert s == (pre + [u]) + post;
    forall i | 0 <= i < |pre|
      ensures !Matches(pre[i], a)
    {
      FullAttributesMatchOnlySelf(u, pre[i]);
      assert pre[i] == s[i];
    }
    forall i | 0 <= i < |post|
      ensures !Matches(post[i], a)
    {
      FullAttributesMatchOnlySelf(u, post[i]);
      assert post[i] == s[k + 1 + i];
    }
    NothingMatches(pre, a);
    NothingMatches(post, a);
    FullAttributesMatchOnlySelf(u, u);
    OneFilter(u, a);
    FilterAppend(pre + [u], post, a);
    FilterAppend(pre, [u], a);
  }
}

=== FILE: text.dfy ===
/**
 The two string primitives the validations rely on: blankness (Ruby's
 `String#blank?`) and the case folding the database applies for a
 case-insensitive comparison (SQL `LOWER`). Both are restricted to ASCII.
 */
module Text {

  /** The ASCII characters of the POSIX `[[:space:]]` class: tab, line feed,
      vertical tab, form feed, carriage return and space. */
  predicate IsSpace(c: char) {
    c == ' ' || '\t' <= c <= '\r'
  }

  /** A string is blank when it holds nothing but white space (the empty
      string included). */
  predicate AllSpace(s: string) {
    forall i :: 0 <= i < |s| ==> IsSpace(s[i])
  }

  predicate IsUpper(c: char) {
    'A' <= c <= 'Z'
  }

  function FoldChar(c: char): (d: char)
    ensures !IsUpper(d)
    ensures IsUpper(c) ==> d as int == c as int + 32
    ensures !IsUpper(c) ==> d == c
  {
    if IsUpper(c) then (c as int + 32) as char else c
  }

  /** Lower-cases every ASCII letter and keeps every other character. */
  function Fold(s: string): (r: string)
    ensures |r| == |s|
    ensures forall i :: 0 <= i < |r| ==> !IsUpper(r[i])
    ensures forall i :: 0 <= i < |s| && !IsUpper(s[i]) ==> r[i] == s[i]
    ensures forall i :: 0 <= i < |s| ==> r[i] == FoldChar(s[i])
  {
    if s == [] then [] else [FoldChar(s[0])] + Fold(s[1..])
  }

  /** Folding twice is folding once, so "equal up to case" is stable. */
  lemma {:induction false} FoldIdempotent(s: string)
    ensures Fold(Fold(s)) == Fold(s)
  {
    if s != [] {
      FoldIdempotent(s[1..]);
      assert Fold(s)[1..] == Fold(s[1..]);
    }
  }

  /** Two strings that differ only in the case of their letters fold alike. */
  lemma {:induction false} FoldIgnoresCase(s: string, t: string)
    requires |s| == |t|
    requires forall i :: 0 <= i < |s| ==> FoldChar(s[i]) == FoldChar(t[i])
    ensures Fold(s) == Fold(t)
  {
    if s != [] {
      FoldIgnoresCase(s[1..], t[1..]);
    }
  }

  /** The converse: strings that fold alike have the same length and agree
      letter by letter up to case. */
  lemma FoldEqualMeansCaseVariants(s: string, t: string)
    requires Fold(s) == Fold(t)
    ensures |s| == |t|
    ensures forall i :: 0 <= i < |s| ==> FoldChar(s[i]) == FoldChar(t[i])
  {
    forall i | 0 <= i < |s|
      ensures FoldChar(s[i]) == FoldChar(t[i])
    {
      assert Fold(s)[i] == Fold(t)[i];
    }
  }
}

=== FILE: user.dfy ===
/**
 The `User` record and its validations: the `gov_id_type` enum, the
 attribute hash a record is built from, and the rules a candidate must
 satisfy before it may be saved.
 */
module UserModel {
  import opened Wrappers
  import opened Text
  import opened Email

  /** The closed enum of identification-document kinds. */
  datatype GovIdType = DriversLicense | Passport | SocialInsuranceNumber

  /** The integer the enum stores in the database column. */
  function Code(t: GovIdType): (c: nat)
    ensures c < 3
  {
    match t
    case DriversLicense => 0
    case Passport => 1
    case SocialInsuranceNumber => 2
  }

  /** Reads a stored integer back as an enum value; only 0, 1 and 2 name one. */
  function FromCode(c: int): (t: Option<GovIdType>)
    ensures t.Some? <==> 0 <= c < 3
    ensures t.Some? ==> Code(t.value) == c
  {
    if c == 0 then Some(DriversLicense)
    else if c == 1 then Some(Passport)
    else if c == 2 then Some(SocialInsuranceNumber)
    else None
  }

  lemma CodeRoundTrip(t: GovIdType)
    ensures FromCode(Code(t)) == Some(t)
  {
  }

  /** The enum's key, the form in which requests name a kind. */
  function Name(t: GovIdType): (key: string)
    ensures |key| > 0 && 'a' <= key[0] <= 'z'
    ensures !AllSpace(key)
  {
    match t
    case DriversLicense => "drivers_license"
    case Passport => "passport"
    case SocialInsuranceNumber => "social_insurance_number"
  }

  function FromName(s: string): (t: Option<GovIdType>)
    ensures t.Some? ==> Name(t.value) == s
    ensures t.None? ==> forall u :: Name(u) != s
  {
    if s == "drivers_license" then Some(DriversLicense)
    else if s == "passport" then Some(Passport)
    else if s == "social_insurance_number" then Some(SocialInsuranceNumber)
    else None
  }

  lemma NameRoundTrip(t: GovIdType)
    ensures FromName(Name(t)) == Some(t)
  {
  }

  /** A stored record: every column is non-null, so no field is optional. */
  datatype User = User(
    firstName: string,
    lastName: string,
    email: string,
    govIdNumber: string,
    govIdType: GovIdType)

  /** The permitted request attributes: a partial record of raw strings.
      It is both what `User.new` is given and what `User.where` filters by. */
  datatype Attributes = Attributes(
    firstName: Option<string>,
    lastName: Option<string>,
    email: Option<string>,
    govIdNumber: Option<string>,
    govIdType: Option<string>)

  /** A record built in memory but not yet saved; any attribute may be nil. */
  datatype Candidate = Candidate(
    firstName: Option<string>,
    lastName: Option<string>,
    email: Option<string>,
    govIdNumber: Option<string>,
    govIdType: Option<GovIdType>)

  function AsCandidate(u: User): Candidate {
    Candidate(Some(u.firstName), Some(u.lastName), Some(u.email), Some(u.govIdNumber), Some(u.govIdType))
  }

  /** The full attribute hash that describes a stored record. */
  function AsAttributes(u: User): Attributes {
    Attributes(Some(u.firstName), Some(u.lastName), Some(u.email), Some(u.govIdNumber), Some(Name(u.govIdType)))
  }

  /** `blank?`: nil, or a string of white space only. */
  predicate IsBlank(s: Option<string>) {
    s.None? || AllSpace(s.value)
  }

  /** Assigning a raw value to the enum attribute: a blank value becomes nil,
      an enum key becomes that kind, and anything else raises ArgumentError
      (carried here as the offending value). */
  function CastGovIdType(raw: Option<string>): (r: Result<Option<GovIdType>, string>)
    ensures r.Err? <==> !IsBlank(raw) && FromName(raw.value).None?
    ensures r.Err? ==> r.error == raw.value
    ensures r.Ok? && r.value.None? <==> IsBlank(raw)
    ensures r.Ok? && r.value.Some? ==> raw == Some(Name(r.value.value))
  {
    if IsBlank(raw) then Ok(None)
    else match FromName(raw.value)
      case Some(t) => Ok(Some(t))
      case None => Err(raw.value)
  }

  /** `User.new(attributes)`: copies the text attributes and casts the enum. */
  function Build(a: Attributes): (r: Result<Candidate, string>)
    ensures r.Err? <==> CastGovIdType(a.govIdType).Err?
    ensures r.Ok? ==> && r.value.firstName == a.firstName
                      && r.value.lastName == a.lastName
                      && r.value.email == a.email
                      && r.value.govIdNumber == a.govIdNumber
                      && r.value.govIdType == CastGovIdType(a.govIdType).value
  {
    match CastGovIdType(a.govIdType)
    case Err(raw) => Err(raw)
    case Ok(t) => Ok(Candidate(a.firstName, a.lastName, a.email, a.govIdNumber, t))
  }

  lemma BuildAsAttributes(u: User)
    ensures Build(AsAttributes(u)) == Ok(AsCandidate(u))
  {
    NameRoundTrip(u.govIdType);
    var n := Name(u.govIdType);
    assert n[0] != ' ' && !IsSpace(n[0]);
  }

  /** The format check reads a nil e-mail as its string form, "". */
  function EmailText(s: Option<string>): string {
    match s
    case None => ""
    case Some(v) => v
  }

  /** The uniqueness validation's query: a stored record collides with a
      candidate when first name, last name, e-mail and kind are equal and the
      document numbers are equal up to case. A nil value never matches a
      stored (non-null) column. */
  predicate Collides(u: User, c: Candidate)
    ensures AsCandidate(u) == c ==> Collides(u, c)
    ensures Collides(u, c) ==> && c.firstName.Some? && c.lastName.Some? && c.email.Some?
                                && c.govIdNumber.Some? && c.govIdType.Some?
  {
    && c.firstName == Some(u.firstName)
    && c.lastName == Some(u.lastName)
    && c.email == Some(u.email)
    && c.govIdType == Some(u.govIdType)
    && c.govIdNumber.Some?
    && Fold(c.govIdNumber.value) == Fold(u.govIdNumber)
  }

  predicate IsTaken(store: seq<User>, c: Candidate)
    ensures IsTaken(store, c) ==> |store| > 0
    ensures IsTaken(store, c) ==> c.firstName.Some? && c.lastName.Some? && c.email.Some? && c.govIdNumber.Some? && c.govIdType.Some?
    ensures forall i :: 0 <= i < |store| && AsCandidate(store[i]) == c ==> IsTaken(store, c)
  {
    exists i :: 0 <= i < |store| && Collides(store[i], c)
  }

  /** All six validation rules, in declaration order. */
  predicate IsValid(store: seq<User>, c: Candidate)
    ensures IsValid(store, c) ==> && c.firstName.Some? && c.lastName.Some? && c.email.Some?
                                  && c.govIdNumber.Some? && c.govIdType.Some?
    ensures IsValid(store, c) ==> forall i :: 0 <= i < |store| ==> AsCandidate(store[i]) != c
  {
    && !IsBlank(c.firstName)
    && !IsBlank(c.lastName)
    && EmailOk(EmailText(c.email))
    && !IsBlank(c.govIdNumber)
    && !IsTaken(store, c)
    && c.govIdType.Some?
  }

  datatype Field = FirstName | LastName | EmailField | GovIdNumber | GovIdTypeField

  /** The framework's error types: presence (blank), format (invalid),
      uniqueness (taken) and inclusion. */
  datatype ErrorKind = Blank | Invalid | Taken | Inclusion

  datatype FieldError = FieldError(field: Field, kind: ErrorKind)

  /** Appends the error when its rule fails. */
  function Report(errs: seq<FieldError>, fails: bool, e: FieldError): (r: seq<FieldError>)
    ensures forall x :: x in r <==> x in errs || (fails && x == e)
    ensures r == [] <==> errs == [] && !fails
    ensures |r| <= |errs| + 1
  {
    if fails then errs + [e] else errs
  }

  /** Runs every validation and collects every failure; it never stops at
      the first one. */
  function Validate(store: seq<User>, c: Candidate): (errs: seq<FieldError>)
    ensures errs == [] <==> IsValid(store, c)
    ensures FieldError(FirstName, Blank) in errs <==> IsBlank(c.firstName)
    ensures FieldError(LastName, Blank) in errs <==> IsBlank(c.lastName)
    ensures FieldError(EmailField, Invalid) in errs <==> !EmailOk(EmailText(c.email))
    ensures FieldError(GovIdNumber, Blank) in errs <==> IsBlank(c.govIdNumber)
    ensures FieldError(GovIdNumber, Taken) in errs <==> IsTaken(store, c)
    ensures FieldError(GovIdTypeField, Inclusion) in errs <==> c.govIdType.None?
    ensures |errs| <= 6
  {
    var errs := Report([], IsBlank(c.firstName), FieldError(FirstName, Blank));
    var errs := Report(errs, IsBlank(c.lastName), FieldError(LastName, Blank));
    var errs := Report(errs, !EmailOk(EmailText(c.email)), FieldError(EmailField, Invalid));
    var errs := Report(errs, IsBlank(c.govIdNumber), FieldError(GovIdNumber, Blank));
    var errs := Report(errs, IsTaken(store, c), FieldError(GovIdNumber, Taken));
    Report(errs, c.govIdType.None?, FieldError(GovIdTypeField, Inclusion))
  }

  /** The record a valid candidate is saved as. */
  function ToUser(store: seq<User>, c: Candidate): (u: User)
    requires IsValid(store, c)
    ensures AsCandidate(u) == c
  {
    User(c.firstName.value, c.lastName.value, c.email.value, c.govIdNumber.value, c.govIdType.value)
  }

  /** A valid candidate has every field present, and its e-mail is not blank. */
  lemma ValidIsComplete(store: seq<User>, c: Candidate)
    requires IsValid(store, c)
    ensures c.firstName.Some? && c.lastName.Some? && c.email.Some?
    ensures c.govIdNumber.Some? && c.govIdType.Some?
    ensures !AllSpace(c.email.value)
  {
    var k :| 0 <= k < |EmailText(c.email)| && EmailText(c.email)[k] == '@'
      && IsLocalPart(EmailText(c.email)[..k]) && IsDomain(EmailText(c.email)[k + 1..]);
    EmailShape(EmailText(c.email), k);
  }

  /** The blank values of spec/models/user_spec.rb: nil, '' and ' '. */
  lemma BlankSamplesAreBlank()
    ensures IsBlank(None) && IsBlank(Some("")) && IsBlank(Some(" "))
  {
  }

  /** A nil, '' or ' ' first name, last name or document number is always
      reported, whatever else the candidate holds, and makes it invalid. */
  lemma {:induction false} BlankSamplesAreReported(store: seq<User>, c: Candidate)
    ensures c.firstName in {None, Some(""), Some(" ")} ==>
      FieldError(FirstName, Blank) in Validate(store, c) && !IsValid(store, c)
    ensures c.lastName in {None, Some(""), Some(" ")} ==>
      FieldError(LastName, Blank) in Validate(store, c) && !IsValid(store, c)
    ensures c.govIdNumber in {None, Some(""), Some(" ")} ==>
      FieldError(GovIdNumber, Blank) in Validate(store, c) && !IsValid(store, c)
  {
    BlankSamplesAreBlank();
  }

  /** Assigning a value that names no kind raises before validation runs,
      while a blank value is a validation failure. */
  lemma UnknownKindRaisesBlankKindFails(store: seq<User>, a: Attributes)
    ensures a.govIdType == Some("invalid") ==> Build(a).Err?
    ensures a.govIdType in {None, Some(""), Some(" ")} ==>
      Build(a).Ok? && FieldError(GovIdTypeField, Inclusion) in Validate(store, Build(a).value)
  {
    assert FromName("invalid").None?;
    assert !IsSpace("invalid"[0]);
  }

  /** A candidate equal to a stored record on four fields and on the document
      number up to case is a duplicate. */
  lemma CaseVariantIsTaken(store: seq<User>, i: int, number: string)
    requires 0 <= i < |store|
    requires Fold(number) == Fold(store[i].govIdNumber)
    ensures FieldError(GovIdNumber, Taken) in
      Validate(store, AsCandidate(store[i]).(govIdNumber := Some(number)))
  {
    assert Collides(store[i], AsCandidate(store[i]).(govIdNumber := Some(number)));
  }

  /** The converse direction: a candidate that differs from every stored
      record on one of the exactly-compared fields is never a duplicate. */
  lemma DifferentEmailIsNotTaken(store: seq<User>, c: Candidate)
    requires c.email.Some?
    requires forall i :: 0 <= i < |store| ==> store[i].email != c.email.value
    ensures FieldError(GovIdNumber, Taken) !in Validate(store, c)
  {
  }

}

=== FILE: users_controller.dfy ===
/**
 The three request handlers over the store: search (`index`), insert
 (`create`) and criteria-based delete (`destroy`), with the strong-parameter
 handling that turns a request into attributes and the missing-parameter
 path that answers 400 before any query runs. A handler takes the current
 store and returns the next one with its outcome.
 */
module UsersController {
  import opened Wrappers
  import opened UserModel
  import opened Store
  import opened Schema

  /** The request parameters the handlers read: the `user` hash (absent or
      a map of keys to string values) and the `unique` flag (absent or any
      string; every present value, even "false", is truthy). */
  datatype Params = Params(user: Option<map<string, string>>, unique: Option<string>)

  const PermittedKeys: set<string> := {"first_name", "last_name", "email", "gov_id_number", "gov_id_type"}

  /** The attribute a permitted key names. */
  function Get(a: Attributes, key: string): Option<string> {
    if key == "first_name" then a.firstName
    else if key == "last_name" then a.lastName
    else if key == "email" then a.email
    else if key == "gov_id_number" then a.govIdNumber
    else if key == "gov_id_type" then a.govIdType
    else None
  }

  function Lookup(m: map<string, string>, key: string): Option<string> {
    if key in m then Some(m[key]) else None
  }

  /** `permit`: keeps the five attribute keys and silently drops any other. */
  function Permit(m: map<string, string>): (a: Attributes)
    ensures forall k :: k in PermittedKeys ==> Get(a, k) == Lookup(m, k)
  {
    Attributes(Lookup(m, "first_name"), Lookup(m, "last_name"), Lookup(m, "email"),
               Lookup(m, "gov_id_number"), Lookup(m, "gov_id_type"))
  }

  /** The request hash that carries exactly the given attributes. */
  function ParamsOf(a: Attributes): (m: map<string, string>)
    ensures m.Keys <= PermittedKeys
  {
    map k | k in PermittedKeys && Get(a, k).Some? :: Get(a, k).value
  }

  lemma PermitParamsOf(a: Attributes)
    ensures Permit(ParamsOf(a)) == a
  {
  }

  /** Keys outside the permitted five have no effect on the attributes. */
  lemma PermitIgnoresOtherKeys(m: map<string, string>, k: string, v: string)
    requires k !in PermittedKeys
    ensures Permit(m[k := v]) == Permit(m)
  {
  }

  /** The per-field rule of `where` with a hash of permitted attributes: a
      record matches exactly when it agrees with every attribute supplied,
      read through the same keys `permit` keeps. */
  lemma MatchesPerField(u: User, a: Attributes)
    ensures Matches(u, a) <==>
      forall k :: k in PermittedKeys && Get(a, k).Some? ==> Get(a, k) == Get(AsAttributes(u), k)
  {
  }

  /** `require(:user)` fails when the hash is absent or empty. */
  predicate MissingUser(p: Params) {
    p.user.None? || p.user.value == map[]
  }

  /** `user_params`: the permitted attributes, or ParameterMissing naming the
      `user` key. */
  function UserParams(p: Params): (r: Result<Attributes, string>)
    ensures r.Err? <==> MissingUser(p)
    ensures r.Err? ==> r.error == "user"
    ensures r.Ok? ==> forall k :: k in PermittedKeys ==> Get(r.value, k) == Lookup(p.user.value, k)
  {
    if MissingUser(p) then Err("user") else Ok(Permit(p.user.value))
  }

  /** What a handler answers, without the JSON rendering. */
  datatype Outcome =
    | Found(users: seq<User>)           // 200 with the matching records
    | NotUnique                         // 200 with an informational error
    | Created(user: User)               // 201 with the saved record
    | Rejected(errors: seq<FieldError>) // 422 with the validation errors
    | NoContent                         // 204, one record deleted
    | Unprocessable                     // 422, the criteria did not select one record
    | BadRequest(param: string)         // 400, the named parameter is missing
    | Raised(error: Exception)          // an exception the controller does not rescue

  /** The exceptions that escape a handler: the enum cast's ArgumentError,
      and the NoMethodError raised when an empty `where` yields a where-chain
      instead of a relation. */
  datatype Exception = ArgumentError(value: string) | NoMethodError

  /** The HTTP status of an outcome. An unrescued exception gets the
      framework's generic 500. */
  function Status(o: Outcome): (code: int)
    ensures code == 200 <==> o.Found? || o.NotUnique?
    ensures code == 201 <==> o.Created?
    ensures code == 204 <==> o.NoContent?
    ensures code == 400 <==> o.BadRequest?
    ensures code == 422 <==> o.Rejected? || o.Unprocessable?
    ensures code == 500 <==> o.Raised?
  {
    match o
    case Found(_) => 200
    case NotUnique => 200
    case Created(_) => 201
    case Rejected(_) => 422
    case NoContent => 204
    case Unprocessable => 422
    case BadRequest(_) => 400
    case Raised(_) => 500
  }

  datatype Response = Response(store: seq<User>, outcome: Outcome)

  /** The permitted attributes are empty: `User.where(**{})` passes no
      argument and gets a where-chain, not a relation over the table. */
  predicate NoCriteria(a: Attributes) {
    a == Attributes(None, None, None, None, None)
  }

  /** GET /users: the records matching the criteria, unless the `unique`
      flag is present and more than one record matches. When no permitted
      attribute survives, the handler works on a where-chain and raises. */
  function Index(store: seq<User>, p: Params): (o: Outcome)
    ensures o.BadRequest? <==> MissingUser(p)
    ensures o.Found? || o.NotUnique? || o.BadRequest? || o == Raised(NoMethodError)
    ensures o.Raised? <==> !MissingUser(p) && NoCriteria(Permit(p.user.value))
    ensures !MissingUser(p) && !NoCriteria(Permit(p.user.value)) ==>
      var a := Permit(p.user.value);
      && (o.NotUnique? <==> p.unique.Some? && |Filter(store, a)| > 1)
      && (o.Found? ==> forall u :: u in o.users <==> u in store && Matches(u, a))
      && (o.Found? ==> |o.users| == |Filter(store, a)|)
      && (o.Found? ==> multiset(o.users) == multiset(Filter(store, a)))
      && (o.Found? && p.unique.Some? ==> |o.users| <= 1)
  {
    match UserParams(p)
    case Err(key) => BadRequest(key)
    case Ok(a) =>
      if NoCriteria(a) then Raised(NoMethodError)
      else
        var found := Filter(store, a);
        if p.unique.Some? && |found| > 1 then NotUnique else Found(found)
  }

  /** POST /users: build the record, validate it, and save it when valid. */
  function Create(store: seq<User>, p: Params): (r: Response)
    ensures r.outcome.BadRequest? <==> MissingUser(p)
    ensures r.outcome.Created? || r.outcome.Rejected? || r.outcome.BadRequest? || r.outcome.Raised?
    ensures r.outcome.Raised? <==> !MissingUser(p) && Build(Permit(p.user.value)).Err?
    ensures r.outcome.Raised? ==> r.outcome.error == ArgumentError(p.user.value["gov_id_type"])
    ensures r.outcome.Created? <==>
      !MissingUser(p) && Build(Permit(p.user.value)).Ok? && IsValid(store, Build(Permit(p.user.value)).value)
    ensures !r.outcome.Created? ==> r.store == store
    ensures r.outcome.Created? ==> r.store == store + [r.outcome.user]
    ensures r.outcome.Created? ==> Matches(r.outcome.user, Permit(p.user.value))
    ensures r.outcome.Created? ==> !IsTaken(store, AsCandidate(r.outcome.user))
    ensures r.outcome.Rejected? ==> r.outcome.errors != []
    ensures r.outcome.Rejected? ==>
      !MissingUser(p) && Build(Permit(p.user.value)).Ok?
      && r.outcome.errors == Validate(store, Build(Permit(p.user.value)).value)
    ensures CaseInsensitivelyDistinct(store) ==> CaseInsensitivelyDistinct(r.store)
    ensures Distinct(store) ==> Distinct(r.store)
  {
    match UserParams(p)
    case Err(key) => Response(store, BadRequest(key))
    case Ok(a) =>
      match Build(a)
      case Err(raw) => Response(store, Raised(ArgumentError(raw)))
      case Ok(c) =>
        var errs := Validate(store, c);
        if errs == [] then
          var u := ToUser(store, c);
          AppendUnique(store, u);
          Response(store + [u], Created(u))
        else
          Response(store, Rejected(errs))
  }

  /** DELETE /users: deletes the matching record only when exactly one
      record matches; otherwise nothing changes. With no permitted attribute
      the `one?` test is sent to a where-chain and raises, deleting nothing. */
  function Destroy(store: seq<User>, p: Params): (r: Response)
    ensures r.outcome.BadRequest? <==> MissingUser(p)
    ensures r.outcome.NoContent? || r.outcome.Unprocessable? || r.outcome.BadRequest?
            || r.outcome == Raised(NoMethodError)
    ensures r.outcome.Raised? <==> !MissingUser(p) && NoCriteria(Permit(p.user.value))
    ensures r.outcome.NoContent? <==>
      !MissingUser(p) && !NoCriteria(Permit(p.user.value)) && |Filter(store, Permit(p.user.value))| == 1
    ensures !r.outcome.NoContent? ==> r.store == store
    ensures r.outcome.NoContent? ==>
      var a := Permit(p.user.value);
      && |r.store| == |store| - 1
      && (forall u :: u in r.store ==> u in store && !Matches(u, a))
      && multiset(r.store) + multiset(Filter(store, a)) == multiset(store)
    ensures CaseInsensitivelyDistinct(store) ==> CaseInsensitivelyDistinct(r.store)
    ensures Distinct(store) ==> Distinct(r.store)
  {
    match UserParams(p)
    case Err(key) => Response(store, BadRequest(key))
    case Ok(a) =>
      if NoCriteria(a) then
        Response(store, Raised(NoMethodError))
      else if |Filter(store, a)| == 1 then
        Partition(store, a);
        RejectKeepsUnique(store, a);
        Response(Reject(store, a), NoContent)
      else
        Response(store, Unprocessable)
  }

  /** A successful delete cuts exactly the one matching record out of the
      store and keeps every other record in its place. */
  lemma DestroyRemovesOnlyTheMatch(store: seq<User>, p: Params) returns (k: nat)
    requires Destroy(store, p).outcome.NoContent?
    ensures k < |store|
    ensures Matches(store[k], Permit(p.user.value))
    ensures Destroy(store, p).store == store[..k] + store[k + 1..]
  {
    var a := Permit(p.user.value);
    k := SingleMatch(store, a);
    assert store[k] in Filter(store, a);
  }

  /** A `user` hash holding only unknown keys passes `require` but permits
      nothing, so search and delete both raise, and delete removes nothing. */
  lemma UnknownKeysRaise(store: seq<User>, m: map<string, string>, unique: Option<string>)
    requires m != map[]
    requires forall k :: k in m ==> k !in PermittedKeys
    ensures Index(store, Params(Some(m), unique)) == Raised(NoMethodError)
    ensures Destroy(store, Params(Some(m), unique)) == Response(store, Raised(NoMethodError))
  {
    assert "first_name" !in m && "last_name" !in m && "email" !in m && "gov_id_number" !in m && "gov_id_type" !in m;
  }

  /** The same hash on create yields an invalid record and no write. */
  lemma UnknownKeysCreateNothing(store: seq<User>, m: map<string, string>, unique: Option<string>)
    requires m != map[]
    requires forall k :: k in m ==> k !in PermittedKeys
    ensures Create(store, Params(Some(m), unique)).outcome.Rejected?
    ensures Create(store, Params(Some(m), unique)).store == store
  {
    assert "first_name" !in m && "last_name" !in m && "email" !in m && "gov_id_number" !in m && "gov_id_type" !in m;
  }

  /** Any value of the `unique` parameter sets the flag. */
  lemma AnyUniqueValueSetsFlag(store: seq<User>, m: Option<map<string, string>>, x: string, y: string)
    ensures Index(store, Params(m, Some(x))) == Index(store, Params(m, Some(y)))
  {
  }

  /** Without criteria, search and delete both answer 400 and change
      nothing, whatever the `unique` flag holds. */
  lemma MissingCriteriaIsBadRequest(store: seq<User>, p: Params)
    requires p.user.None? || p.user == Some(map[])
    ensures Status(Index(store, p)) == 400
    ensures Status(Destroy(store, p).outcome) == 400 && Destroy(store, p).store == store
  {
  }

  /** The statuses of search: 400 when the criteria are missing, 500 when
      none of them is permitted, and 200 otherwise. */
  lemma IndexStatus(store: seq<User>, p: Params)
    ensures Status(Index(store, p)) ==
      if MissingUser(p) then 400 else if NoCriteria(Permit(p.user.value)) then 500 else 200
  {
  }

  /** The statuses of delete: 204 exactly when one record matches, 422 for
      zero or several matches, 400 without criteria, 500 when none of the
      criteria is permitted. */
  lemma DestroyStatus(store: seq<User>, p: Params)
    ensures var code := Status(Destroy(store, p).outcome);
      && (code == 204 <==> !MissingUser(p) && !NoCriteria(Permit(p.user.value))
                           && |Filter(store, Permit(p.user.value))| == 1)
      && (code == 422 <==> !MissingUser(p) && !NoCriteria(Permit(p.user.value))
                           && |Filter(store, Permit(p.user.value))| != 1)
      && (code == 400 <==> MissingUser(p))
      && (code == 500 <==> !MissingUser(p) && NoCriteria(Permit(p.user.value)))
  {
  }

  /** The statuses of create: 201 when saved, 422 when invalid, and the
      store grows by one exactly when the status is 201. */
  lemma CreateStatus(store: seq<User>, p: Params)
    ensures var r := Create(store, p);
      && (Status(r.outcome) == 201 <==> |r.store| == |store| + 1)
      && (Status(r.outcome) != 201 ==> r.store == store)
      && (Status(r.outcome) == 422 ==> r.outcome.errors != [])
  {
  }

  /** A saved record is found again by its full attribute set, and only it. */
  lemma CreatedIsRetrievable(store: seq<User>, p: Params)
    requires Distinct(store)
    requires Create(store, p).outcome.Created?
    ensures var r := Create(store, p);
      Index(r.store, Params(Some(ParamsOf(AsAttributes(r.outcome.user))), None)) == Found([r.outcome.user])
  {
    var r := Create(store, p);
    var u := r.outcome.user;
    PermitParamsOf(AsAttributes(u));
    assert "first_name" in ParamsOf(AsAttributes(u));
    FullAttributesIdentify(r.store, u);
  }

  /** A complete, well-formed request body, and the record it describes. */
  const CompleteParams: Params :=
    Params(Some(map["first_name" := "A", "last_name" := "B", "email" := "a@b.com",
                    "gov_id_number" := "123", "gov_id_type" := "passport"]), None)

  const CompleteUser: User := User("A", "B", "a@b.com", "123", Passport)

  lemma CompleteParamsBuild()
    ensures !MissingUser(CompleteParams)
    ensures Build(Permit(CompleteParams.user.value)) == Ok(AsCandidate(CompleteUser))
  {
    var m := CompleteParams.user.value;
    assert "first_name" in m;
    assert Permit(m) == AsAttributes(CompleteUser);
    BuildAsAttributes(CompleteUser);
  }

  /** Posted to an empty store, the complete request is saved. */
  lemma FirstInsertSaved()
    ensures Create([], CompleteParams) == Response([CompleteUser], Created(CompleteUser))
  {
    CompleteParamsBuild();
    Email.PlainEmailAccepted();
    assert !Text.IsSpace("A"[0]) && !Text.IsSpace("B"[0]) && !Text.IsSpace("123"[0]);
    assert IsValid([], AsCandidate(CompleteUser));
  }

  /** Inserting the same person twice: the first insert is saved, the second
      is rejected with exactly the uniqueness error and writes nothing. */
  lemma DoubleInsertRejected()
    ensures Create([], CompleteParams).outcome.Created?
    ensures var first := Create([], CompleteParams).store;
      Create(first, CompleteParams) == Response(first, Rejected([FieldError(GovIdNumber, Taken)]))
  {
    FirstInsertSaved();
    CompleteParamsBuild();
    var c := AsCandidate(CompleteUser);
    assert Collides([CompleteUser][0], c);
    DuplicateReportsOnlyTaken(c);
  }

  /** Against a store holding that record, the same request fails the
      uniqueness rule and no other. */
  lemma DuplicateReportsOnlyTaken(c: Candidate)
    requires c == AsCandidate(CompleteUser)
    ensures Validate([CompleteUser], c) == [FieldError(GovIdNumber, Taken)]
  {
    assert !IsBlank(c.firstName) by { assert !Text.IsSpace("A"[0]); }
    assert !IsBlank(c.lastName) by { assert !Text.IsSpace("B"[0]); }
    assert !IsBlank(c.govIdNumber) by { assert !Text.IsSpace("123"[0]); }
    assert Email.EmailOk(EmailText(c.email)) by { Email.PlainEmailAccepted(); }
    assert IsTaken([CompleteUser], c) by { assert Collides([CompleteUser][0], c); }
  }

  /** The requests the controller serves. */
  datatype Request = Search(params: Params) | Insert(params: Params) | Delete(params: Params)

  function Handle(store: seq<User>, req: Request): (r: Response)
    ensures req.Search? ==> r.store == store
    ensures |r.store| <= |store| + 1
    ensures CaseInsensitivelyDistinct(store) ==> CaseInsensitivelyDistinct(r.store)
    ensures Distinct(store) ==> Distinct(r.store)
  {
    match req
    case Search(p) => Response(store, Index(store, p))
    case Insert(p) => Create(store, p)
    case Delete(p) => Destroy(store, p)
  }

  /** The store after serving the requests one after another. */
  function Run(store: seq<User>, reqs: seq<Request>): (final: seq<User>)
    ensures (forall i :: 0 <= i < |reqs| ==> reqs[i].Search?) ==> final == store
    ensures |final| <= |store| + |reqs|
    ensures CaseInsensitivelyDistinct(store) ==> CaseInsensitivelyDistinct(final)
    decreases |reqs|
  {
    if reqs == [] then store else Run(Handle(store, reqs[0]).store, reqs[1..])
  }

  /** Whatever requests are served, the store keeps the validation's
      uniqueness invariant, and its rows meet the NOT NULL constraints and
      the exact unique index of the table. */
  lemma {:induction false} RunKeepsTableConstraints(store: seq<User>, reqs: seq<Request>)
    requires CaseInsensitivelyDistinct(store)
    ensures CaseInsensitivelyDistinct(Run(store, reqs))
    ensures UniqueIndex(Rows(Run(store, reqs)))
    ensures forall i :: 0 <= i < |Run(store, reqs)| ==> NotNull(Rows(Run(store, reqs))[i])
    decreases |reqs|
  {
    if reqs == [] {
      ValidationMeetsIndex(store);
      RowsNotNull(store);
    } else {
      RunKeepsTableConstraints(Handle(store, reqs[0]).store, reqs[1..]);
    }
  }
}

=== FILE: wrappers.dfy ===
/** The Option and Result datatypes shared by the model. */
module Wrappers {

  /** A value that may be absent; `None` plays the part of Ruby's `nil`. */
  datatype Option<+T> = None | Some(value: T)

  /** Either a value or an error, for operations that can raise. */
  datatype Result<+T, +E> = Ok(value: T) | Err(error: E)
}
